=== FILE: README.md ===
# Resume-form validation core, modelled in Dafny

The site's lead-capture form takes a visitor's contact details and a resume
file. Everything around it is plumbing: the Flask routes, the SMTP senders and
the cloud-storage client. The only logic of its own is a small set of
validation and formatting rules. This project models those rules as pure Dafny
functions over `string` (`seq<char>`) and proves what they promise:

- `UploadCheck` (`upload_check.dfy`) is the server's `allowed_file`. A name is
  accepted when it has a dot and the text after the last dot, lower-cased, is
  `pdf`, `doc` or `docx`.
- `ClientUtils` (`client_utils.dfy`) holds the browser helpers of
  `static/js/utils.js`:
  - `validateEmail` and `validatePhone`;
  - the `(ddd) ddd-dddd` formatter `formatPhoneNumber`;
  - the type and size check `handleFileUpload`;
  - `showFieldError`/`clearFieldError`, as a value describing the field's error
    display.
- `FormValidation` (`form_validation.dfy`) is `validateField` from
  `static/js/main.js`. It trims the value, clears the old error, then runs the
  required, e-mail and phone checks in that order. It also covers the
  `blur`/`input` listeners that call it.
- `Text` (`text.dfy`) gives the meaning of the JavaScript and Python built-ins
  these rules use:
  - the `\s` class and `trim`;
  - `replace(/…/g, '')`, modelled as a filter;
  - ASCII lower-casing;
  - `split('.')` and `rsplit('.', 1)`, through the position of the last dot.

Page writes are returned as values, not performed. `FormatPhoneNumber` returns
the new `input.value`. `HandleFileUpload` and `ValidateField` return the
verdict together with the field's `FieldView`. A `FieldView` is the list of
error elements after the input, newest first, plus whether the red border is
set.

Two behaviours of the code are worth knowing, and both are modelled as written:

- The browser's `handleFileUpload` and the server's `allowed_file` disagree
  on names without a dot. No route in `app/routes.py` calls `allowed_file`:
  `submit_form` saves any uploaded file under its `secure_filename` name, so
  the only extension check applied is the browser's.
  `split('.').pop()` returns the whole name, so a file called `pdf` passes
  `handleFileUpload` but fails `allowed_file`. On names with a dot the two
  extension checks agree. The browser also rejects files over 10 MiB, which
  `allowed_file` does not look at (`AgreesWithServerOnDottedNames`,
  `DotlessNamesDiverge`).
- The size message says "less than 10MB", but the comparison is `>`. A file of
  exactly 10 MiB is therefore accepted (`SizeLimitInclusive`).

## Model

| member | source | states |
|---|---|---|
| `UploadCheck.AllowedFile` | app/utils.py:10-14 | a name without a dot (the empty name included) is rejected |
| `UploadCheck.AllowedFileMeaning` | app/utils.py:13-14 | accepted exactly when some dot has no dot after it and the text after it, lower-cased, is `pdf`, `doc` or `docx` |
| `UploadCheck.ExtensionDecides` | app/utils.py:14 | for `stem + "." + ext` with a dot-free `ext`, the verdict is whether lower-cased `ext` is allowed; the stem is never examined (so `.pdf` passes) |
| `UploadCheck.InnerDotsIgnored` | app/utils.py:14 | only the segment after the last dot counts: `stem + "." + ext` gets the verdict of `ext` when `ext` holds a dot |
| `UploadCheck.TrailingDotRejected` | tests/test_utils.py:46-49 | any name ending in a dot, `.` and `file.` among them, is rejected |
| `UploadCheck.LowerCasePreservesVerdict` | app/utils.py:14 | lower-casing the whole name does not change the verdict |
| `UploadCheck.CaseInsensitive` | app/utils.py:14 | two names equal up to letter case get the same verdict |
| `UploadCheck.LowerKeepsExtension` | app/utils.py:14 | lower-casing moves no dot, and the extension of the lower-cased name is the lower-cased extension |
| `UploadCheck.ListedExtensionsAccepted` | tests/test_utils.py:8-19 | with any stem, `pdf`, `doc`, `docx`, `PDF`, `DOC` and `DOCX` are accepted |
| `UploadCheck.OtherExtensionsRejected` | tests/test_utils.py:21-32 | with any stem, `txt`, `jpg`, `png`, `exe` and `py` are rejected |
| `UploadCheck.LastSegmentOnly` | app/utils.py:14 | `a.pdf.txt` is rejected; `a.txt.pdf` and `.pdf` are accepted |
| `Text.Lower` | app/utils.py:14 | ASCII lower-casing, character by character: same length, each letter `A`-`Z` mapped to its lower case and every other character kept (also `toLowerCase` at static/js/utils.js:127) |
| `Text.Trim` | static/js/main.js:80 | `String.prototype.trim`: drops the leading and trailing `\s` characters, so the result neither starts nor ends with one |
| `Text.Split` | static/js/utils.js:127 | `split('.')`: the pieces between the dots, always at least one |
| `Text.Join` | static/js/utils.js:129 | `allowedTypes.join(', ')`: the items with the separator between neighbours |
| `ClientUtils.TypeErrorMessage` | static/js/utils.js:129 | the type message, with the allowed extensions joined by `, ` |
| `Text.RSplitOnce` | app/utils.py:14 | `rsplit('.', 1)` gives `[s]` when there is no dot, and two parts when there is one; rejoined around the dot they give the name, and the second part has no dot |
| `Text.LastIndexOf` | app/utils.py:14 | the last occurrence of a character, or none exactly when it does not occur |
| `Text.SplitLastPiece` | static/js/utils.js:127 | the last piece of `split('.')` is the text after the last dot, or the whole name when there is no dot |
| `Text.TrimEmptyIffBlank` | static/js/main.js:80 | `trim` yields the empty string exactly when every character is `\s` white space |
| `Text.TrimIdempotent` | static/js/main.js:80 | trimming twice is trimming once |
| `ClientUtils.ValidateEmail` | static/js/utils.js:42-45 | an accepted address has at least 5 characters, no white space and exactly one `@`, which is not its first character |
| `ClientUtils.MatchesEmailPattern` | static/js/utils.js:43 | the language of `^[^\s@]+@[^\s@]+\.[^\s@]+$`: a non-empty run of characters other than `@` and white space, an `@`, another such run, a `.`, and a last such run |
| `ClientUtils.ValidateEmailMeaning` | static/js/utils.js:43-44 | accepted exactly when the string matches `^[^\s@]+@[^\s@]+\.[^\s@]+$`, stated as three non-empty `@`/space-free runs around an `@` and a `.` |
| `ClientUtils.EmailAcceptedMatches` | static/js/utils.js:43-44 | every accepted address matches the regular expression |
| `ClientUtils.EmailMatchAccepted` | static/js/utils.js:43-44 | every match of the regular expression is accepted |
| `ClientUtils.StripSeparators` | static/js/utils.js:54 | `replace(/[\s\-\(\)]/g, '')`: never longer than the input, no separator is left, and a number without separators is unchanged |
| `ClientUtils.MatchesPhonePattern` | static/js/utils.js:53 | the language of `^[\+]?[1-9][\d]{0,15}$`: an optional `+`, then 1 to 16 digits, the first not `0` |
| `ClientUtils.ValidatePhone` | static/js/utils.js:52-55 | a valid number has 1 to 17 characters left once separators are removed, and all of them but the first are digits; the exact condition is `ValidatePhoneMeaning` |
| `ClientUtils.ValidatePhoneMeaning` | static/js/utils.js:52-55 | valid exactly when, separators removed, the number is its digits with at most a leading `+`, and there are 1 to 16 digits, the first not `0` |
| `ClientUtils.PhoneAcceptedShape` | static/js/utils.js:53-54 | a valid number, stripped, is its digits with an optional `+`; there are 1 to 16 digits and the first is not `0` |
| `ClientUtils.PhoneShapeAccepted` | static/js/utils.js:53-54 | the converse of the above |
| `ClientUtils.StrippedDigits` | static/js/utils.js:54 | removing spaces, `-`, `(` and `)` keeps every digit in order |
| `ClientUtils.StripIdempotent` | static/js/utils.js:54 | removing separators twice is removing them once, so an already stripped number gets the same verdict |
| `ClientUtils.SeparatorsIgnored` | static/js/utils.js:54 | inserting separator characters anywhere never changes the verdict |
| `ClientUtils.Digits` | static/js/utils.js:97 | `replace(/\D/g, '')` leaves only digits, and leaves a string of digits unchanged |
| `ClientUtils.Layout` | static/js/utils.js:99-107 | the if-chain on the digit string: empty exactly when there are no digits, otherwise it starts with `(`, and it is at most 14 characters long |
| `ClientUtils.FormatPhoneNumber` | static/js/utils.js:96-110 | the formatted value is at most 14 characters long |
| `ClientUtils.FormatFitsMask` | static/js/utils.js:99-107 | the value is a prefix of the `(ddd) ddd-dddd` mask that is empty or ends with a digit |
| `ClientUtils.FormatKeepsDigits` | static/js/utils.js:97-106 | the digits of the value are the input's first ten digits; later ones are dropped |
| `ClientUtils.LayoutShortDigits` | static/js/utils.js:100-101 | for 1 to 3 digits, the digits of `Layout(d)` are exactly `d` |
| `ClientUtils.LayoutMediumDigits` | static/js/utils.js:102-103 | for 4 to 6 digits, the digits of `Layout(d)` are exactly `d` |
| `ClientUtils.LayoutLongDigits` | static/js/utils.js:104-105 | for 7 or more digits, the digits of `Layout(d)` are the first ten of `d` |
| `ClientUtils.FormatUsesFirstTenDigits` | static/js/utils.js:97-106 | inputs with the same first ten digits format the same |
| `ClientUtils.FormatIdempotent` | static/js/utils.js:96-110 | formatting a formatted value returns it unchanged |
| `ClientUtils.StripFormatted` | static/js/utils.js:54 | removing separators from a formatted value leaves exactly its digits, so the punctuation it writes never counts against `validatePhone` |
| `ClientUtils.FormattedNumberValidates` | static/js/utils.js:52-55 | a formatted number passes `validatePhone` exactly when the input has a digit and its first digit is not `0` |
| `ClientUtils.ClearFieldError` | static/js/utils.js:83-90 | drops the red border and the first error element, if there is one |
| `ClientUtils.ShowFieldError` | static/js/utils.js:62-77 | the field gets the border and the message as its first error; a field that showed at most one error now shows exactly that message |
| `ClientUtils.FileExtension` | static/js/utils.js:127 | the lower-cased text after the last dot, or the whole lower-cased name when there is no dot |
| `ClientUtils.HandleFileUpload` | static/js/utils.js:118-143 | accepted exactly when a file is chosen, the allow-list is empty or lists its extension, and its size is at most 10·1024·1024; with no file the field is untouched, otherwise it is flagged exactly when the file is rejected |
| `ClientUtils.UploadErrorOrder` | static/js/utils.js:126-142 | the type message wins over the size message, the size message is shown only for a type-correct file, and an accepted file leaves no error |
| `ClientUtils.SizeLimitInclusive` | static/js/utils.js:135-136 | exactly 10 MiB passes; one byte more is rejected |
| `ClientUtils.AgreesWithServerOnDottedNames` | static/js/utils.js:126-131 | for names with a dot and a size of at most 10·1024·1024 bytes, checked against the server's three extensions, the browser check accepts exactly what `allowed_file` accepts |
| `ClientUtils.DotlessNamesDiverge` | static/js/utils.js:127 | for names without a dot, `allowed_file` always rejects while the browser check accepts when the whole lower-cased name is an allowed extension |
| `ClientUtils.BarePdfDiverges` | static/js/utils.js:127 | a file named `pdf` passes the browser check and fails `allowed_file` |
| `FormValidation.FieldError` | static/js/main.js:79-112 | the checks run on the trimmed value in order: an empty value fails with the required message if required and passes otherwise; a non-empty `email` or `tel` value fails with its own message exactly when its validator rejects it; any other type passes |
| `FormValidation.ValidateField` | static/js/main.js:79-112 | returns true exactly when there is no message; the field is flagged exactly when it fails; a field that showed at most one error shows exactly the new message, or none |
| `FormValidation.BlankValueIsEmpty` | static/js/main.js:80-91 | a white-space-only value counts as empty: a required field fails with `This field is required`, an optional one passes, whatever the type |
| `FormValidation.NonBlankNeverMissing` | static/js/main.js:88-91 | a value with any non-white-space character never gets the required message |
| `FormValidation.TrimmedFirst` | static/js/main.js:80 | trimming the value beforehand changes nothing |
| `FormValidation.EmailFieldRule` | static/js/main.js:94-99 | a non-empty `email` field passes exactly when its trimmed value matches the e-mail regular expression |
| `FormValidation.TelFieldRule` | static/js/main.js:103-108 | a non-empty `tel` field passes exactly when its trimmed value, stripped, is an optional `+` and 1 to 16 digits, the first not `0` |
| `FormValidation.AfterEvents` | static/js/main.js:68-74 | the field's error display after a run of events: a `blur` runs `validateField` on the value at that moment, an `input` clears the error |
| `FormValidation.BorderMatchesMessage` | static/js/main.js:68-74 | after at least one event, the field carries the red border exactly when it shows an error message |
| `FormValidation.AtMostOneError` | static/js/main.js:61-77 | over any sequence of `blur` and `input` events, the field never shows more than one error |
| `FormValidation.AfterEventsAppend` | static/js/main.js:61-77 | running two event sequences one after the other is running their concatenation |
| `FormValidation.LastBlurDecides` | static/js/main.js:68-70 | after a final `blur`, the field shows exactly that check's message, or nothing |

## Left out

- The Google Drive client is not modelled. It covers OAuth token handling, the upload and the folder queries in `app/google_drive_utils.py`, `setup_google_drive.py` and `test_google_auth.py`. It is I/O against a third-party SDK.
- The e-mail senders are not modelled: `send_consultation_email`, `send_confirmation_email`, `send_notification_email` and `send_drive_notification`. They compose MIME messages and talk to an SMTP server.
- The Flask routes, the app factory, `config.py` and the static testimonials are not modelled. They are HTTP plumbing and constants.
- The page scripts `get-started.js`, `resume-builder.js` and `home.js` are not modelled, nor are `showToast` and the URL-parameter helpers. They drive the browser DOM and history.
- `debounce` and `throttle` are not modelled. Their behaviour is about timers and call timing.
- Lower-casing is ASCII only. Python's `str.lower` and JavaScript's `toLowerCase` also fold non-ASCII letters. For `allowed_file` the result is the same: the only non-ASCII characters that lower-case to ASCII letters become `k`, or `i` followed by a combining dot, and neither `k` nor `i` occurs in `pdf`, `doc` or `docx`. For `handleFileUpload` with a caller-supplied list holding such letters it may differ.
- Characters are Unicode scalar values. JavaScript strings can also hold lone UTF-16 surrogates, which cannot be written here. `\s` is modelled exactly, and `\d`/`\D` are the ASCII digits, as in JavaScript without the `u` flag.
- `handleFileUpload` sees a file only as its name and byte size. The file's contents and MIME type are not read by the check and are not modelled.
- `FieldView` assumes each field has a non-empty id that no other field uses. The page finds a field's error element by the id `<field id>-error`, so fields without an id, or with the same id, share one. With a shared id, another field's `clearFieldError` removes this field's message and leaves its red border. `FieldView`, `ClearFieldError`, `ShowFieldError` and `AfterEvents` do not capture that: each field's errors are reached only by its own events. `AtMostOneError` and `LastBlurDecides` still hold when read as statements about all the elements that share the id, because every blur clears before it inserts.
- In `FieldView`, the position of error elements in the page is reduced to their order after the input. `getElementById` returns the first element with the id, and `insertBefore(…, field.nextSibling)` puts the newest first.
- The other event wiring of `main.js` is not modelled: card hover, smooth scrolling and the mobile menu. It only toggles CSS classes.

=== FILE: client_utils.dfy ===
/**
 * The browser-side helpers of static/js/utils.js: the e-mail and phone
 * validators, the phone formatter applied while the user types, and the
 * type and size check of a chosen upload.  Writes to the page are returned
 * as values: the formatter returns the new `input.value`, and the upload
 * check returns the field's error display (`FieldView`) as it is afterwards.
 */
module ClientUtils {
  import opened Text
  import UploadCheck

  // ---------------------------------------------------------------- e-mail

  /** `[^\s@]`: a character allowed in each of the three parts of an address. */
  predicate IsAddressChar(c: char) {
    !IsSpace(c) && c != '@'
  }

  predicate AllAddressChars(s: string) {
    forall i :: 0 <= i < |s| ==> IsAddressChar(s[i])
  }

  /**
   * `/^[^\s@]+@[^\s@]+\.[^\s@]+$/` read as a language: the string is a
   * non-empty run of address characters, an `@`, another non-empty run, a
   * `.`, and a last non-empty run.
   */
  ghost predicate MatchesEmailPattern(s: string) {
    exists i, j :: 0 < i && i + 1 < j && j + 1 < |s| && s[i] == '@' && s[j] == '.'
                   && AllAddressChars(s[..i]) && AllAddressChars(s[i + 1..j])
                   && AllAddressChars(s[j + 1..])
  }

  /**
   * `validateEmail`: one `@` with a non-empty part before it, and after it a
   * part holding a dot that is neither its first nor its last character; no
   * white space anywhere.
   */
  function ValidateEmail(email: string): (ok: bool)
    ensures ok ==> |email| >= 5
    ensures ok ==> forall k :: 0 <= k < |email| ==> !IsSpace(email[k])
    ensures ok ==> exists at :: 0 < at < |email| && email[at] == '@'
                                && forall k :: 0 <= k < |email| && email[k] == '@' ==> k == at
  {
    match LastIndexOf(email, '@')
    case None => false
    case Some(at) =>
      var local := email[..at];
      var domain := email[at + 1..];
      var valid := |local| > 0 && AllAddressChars(local) && AllAddressChars(domain)
                   && |domain| >= 3 && '.' in domain[1..|domain| - 1];
      assert valid ==> forall k :: 0 <= k < |email| ==> !IsSpace(email[k]) && (email[k] == '@' ==> k == at) by {
        if valid {
          forall k | 0 <= k < |email|
            ensures !IsSpace(email[k]) && (email[k] == '@' ==> k == at)
          {
            if k < at {
              assert email[k] == local[k];
            } else if k > at {
              assert email[k] == domain[k - at - 1];
            }
          }
        }
      }
      valid
  }

  lemma EmailAcceptedMatches(email: string)
    requires ValidateEmail(email)
    ensures MatchesEmailPattern(email)
  {
    var at := LastIndexOf(email, '@').value;
    var domain := email[at + 1..];
    var m :| 1 <= m < |domain| - 1 && domain[m] == '.' by {
      var d := domain[1..|domain| - 1];
      var m' :| 0 <= m' < |d| && d[m'] == '.';
      assert domain[m' + 1] == '.';
    }
    var j := at + 1 + m;
    assert email[j] == '.';
    assert email[at + 1..j] == domain[..m];
    assert email[j + 1..] == domain[m + 1..];
    assert AllAddressChars(email[at + 1..j]);
    assert AllAddressChars(email[j + 1..]);
  }

  lemma EmailMatchAccepted(email: string, i: nat, j: nat)
    requires 0 < i && i + 1 < j && j + 1 < |email| && email[i] == '@' && email[j] == '.'
    requires AllAddressChars(email[..i]) && AllAddressChars(email[i + 1..j]) && AllAddressChars(email[j + 1..])
    ensures ValidateEmail(email)
  {
    var domain := email[i + 1..];
    assert AllAddressChars(domain) by {
      forall k | 0 <= k < |domain| ensures IsAddressChar(domain[k]) {
        if i + 1 + k < j {
          assert domain[k] == email[i + 1..j][k];
        } else if i + 1 + k > j {
          assert domain[k] == email[j + 1..][i + k - j];
        }
      }
    }
    assert '@' !in domain;
    LastIndexOfUnique(email, '@', i);
    var d := domain[1..|domain| - 1];
    assert d[j - i - 2] == '.';
  }

  /** `validateEmail` accepts exactly the strings its regular expression matches. */
  lemma ValidateEmailMeaning(email: string)
    ensures ValidateEmail(email) <==> MatchesEmailPattern(email)
  {
    if ValidateEmail(email) {
      EmailAcceptedMatches(email);
    }
    if MatchesEmailPattern(email) {
      var i, j :| 0 < i && i + 1 < j && j + 1 < |email| && email[i] == '@' && email[j] == '.'
                  && AllAddressChars(email[..i]) && AllAddressChars(email[i + 1..j])
                  && AllAddressChars(email[j + 1..]);
      EmailMatchAccepted(email, i, j);
    }
  }

  // ----------------------------------------------------------------- phone

  /** The characters `/[\s\-\(\)]/g` removes before a phone number is checked. */
  predicate IsPhoneSeparator(c: char) {
    IsSpace(c) || c == '-' || c == '(' || c == ')'
  }

  predicate AllDigits(s: string) {
    forall k :: 0 <= k < |s| ==> IsDigit(s[k])
  }

  predicate IsKeptInPhone(c: char) {
    !IsPhoneSeparator(c)
  }

  /** The number with white space, `-`, `(` and `)` removed, as `validatePhone` tests it. */
  function StripSeparators(phone: string): (t: string)
    ensures |t| <= |phone|
    ensures forall k :: 0 <= k < |t| ==> !IsPhoneSeparator(t[k])
    ensures (forall k :: 0 <= k < |phone| ==> !IsPhoneSeparator(phone[k])) ==> t == phone
  {
    Filter(phone, IsKeptInPhone)
  }

  /** What `[\+]?` leaves for the rest of the pattern: the string without a leading `+`. */
  function AfterPlus(t: string): string {
    if |t| > 0 && t[0] == '+' then t[1..] else t
  }

  /** `/^[\+]?[1-9][\d]{0,15}$/`: an optional `+`, then 1 to 16 digits, the first not `0`. */
  predicate MatchesPhonePattern(t: string) {
    var digits := AfterPlus(t);
    1 <= |digits| <= 16 && '1' <= digits[0] <= '9' && AllDigits(digits)
  }

  /** `validatePhone`: the pattern above, tested on the number with its separators removed. */
  function ValidatePhone(phone: string): (ok: bool)
    ensures ok ==> 1 <= |StripSeparators(phone)| <= 17
    ensures ok ==> forall k :: 0 < k < |StripSeparators(phone)| ==> IsDigit(StripSeparators(phone)[k])
  {
    MatchesPhonePattern(StripSeparators(phone))
  }

  /** `/\D/g` with an empty replacement: the decimal digits of `s`, in order. */
  function Digits(s: string): (d: string)
    ensures AllDigits(d)
    ensures AllDigits(s) ==> d == s
  {
    Filter(s, IsDigit)
  }

  lemma DigitsAppend(a: string, b: string)
    ensures Digits(a + b) == Digits(a) + Digits(b)
  {
    FilterAppend(a, b, IsDigit);
  }

  lemma {:induction false} FilterAgrees(s: string, keep: char -> bool, keep': char -> bool)
    requires forall i :: 0 <= i < |s| ==> keep(s[i]) == keep'(s[i])
    ensures Filter(s, keep) == Filter(s, keep')
  {
    if s != [] {
      FilterAgrees(s[1..], keep, keep');
    }
  }

  /** Removing separators keeps every digit: the digits of the stripped string are the digits of the input. */
  lemma StrippedDigits(s: string)
    ensures Digits(StripSeparators(s)) == Digits(s)
  {
    assert forall c :: IsDigit(c) ==> IsKeptInPhone(c);
    FilterOfFilter(s, IsKeptInPhone, IsDigit);
  }

  lemma PhoneAcceptedShape(phone: string)
    requires ValidatePhone(phone)
    ensures StripSeparators(phone) == Digits(phone) || StripSeparators(phone) == "+" + Digits(phone)
    ensures 1 <= |Digits(phone)| <= 16 && Digits(phone)[0] != '0'
  {
    var t := StripSeparators(phone);
    var rest := AfterPlus(t);
    StrippedDigits(phone);
    assert AllDigits(rest);
    if |t| > 0 && t[0] == '+' {
      assert t == "+" + rest;
      DigitsAppend("+", rest);
      assert Digits("+") == [];
    } else {
      assert t == rest;
    }
    assert Digits(phone) == rest;
  }

  lemma PhoneShapeAccepted(phone: string)
    requires StripSeparators(phone) == Digits(phone) || StripSeparators(phone) == "+" + Digits(phone)
    requires 1 <= |Digits(phone)| <= 16 && Digits(phone)[0] != '0'
    ensures ValidatePhone(phone)
  {
    var t := StripSeparators(phone);
    var d := Digits(phone);
    if t == d {
      assert t[0] != '+';
      assert AfterPlus(t) == d;
    } else {
      assert t[1..] == d;
      assert AfterPlus(t) == d;
    }
  }

  /**
   * A phone number is valid exactly when, once separators are gone, what
   * is left is its digits with at most a leading `+`, and there are 1 to 16
   * digits of which the first is not `0`.
   */
  lemma ValidatePhoneMeaning(phone: string)
    ensures ValidatePhone(phone) <==>
              (StripSeparators(phone) == Digits(phone) || StripSeparators(phone) == "+" + Digits(phone))
              && 1 <= |Digits(phone)| <= 16 && Digits(phone)[0] != '0'
  {
    if ValidatePhone(phone) {
      PhoneAcceptedShape(phone);
    }
    if (StripSeparators(phone) == Digits(phone) || StripSeparators(phone) == "+" + Digits(phone))
       && 1 <= |Digits(phone)| <= 16 && Digits(phone)[0] != '0' {
      PhoneShapeAccepted(phone);
    }
  }

  /** Removing separators twice is removing them once, so a stripped number validates as the original does. */
  lemma StripIdempotent(phone: string)
    ensures StripSeparators(StripSeparators(phone)) == StripSeparators(phone)
    ensures ValidatePhone(StripSeparators(phone)) == ValidatePhone(phone)
  {
    FilterIdempotent(phone, IsKeptInPhone);
  }

  lemma StripAppend(a: string, b: string)
    ensures StripSeparators(a + b) == StripSeparators(a) + StripSeparators(b)
  {
    FilterAppend(a, b, IsKeptInPhone);
  }

  /** Inserting separators anywhere in a phone number never changes the verdict. */
  lemma SeparatorsIgnored(before: string, separators: string, after: string)
    requires forall k :: 0 <= k < |separators| ==> IsPhoneSeparator(separators[k])
    ensures ValidatePhone(before + separators + after) == ValidatePhone(before + after)
  {
    assert StripSeparators(separators) == [];
    StripAppend(before + separators, after);
    StripAppend(before, separators);
    StripAppend(before, after);
    assert StripSeparators(before + separators) == StripSeparators(before);
    assert StripSeparators(before + separators + after) == StripSeparators(before + after);
  }

  // ------------------------------------------------------- phone formatter

  function Min(a: int, b: int): int {
    if a < b then a else b
  }

  /** The if-chain of `formatPhoneNumber` on the typed digits `d`. */
  function Layout(d: string): (formatted: string)
    ensures |formatted| <= 14
    ensures formatted == [] <==> d == []
    ensures d != [] ==> formatted[0] == '('
  {
    if |d| == 0 then ""
    else if |d| <= 3 then "(" + d
    else if |d| <= 6 then "(" + d[..3] + ") " + d[3..]
    else "(" + d[..3] + ") " + d[3..6] + "-" + d[6..Min(|d|, 10)]
  }

  /**
   * `formatPhoneNumber`: the new `input.value` for the typed `value`.  Only
   * the digits are kept, and they are laid out as `(ddd) ddd-dddd` as far as
   * they go; digits after the tenth are dropped.
   */
  function FormatPhoneNumber(value: string): (formatted: string)
    ensures |formatted| <= 14
  {
    Layout(Digits(value))
  }

  /** The character the `(ddd) ddd-dddd` mask expects at `position`: a digit, or the punctuation there. */
  predicate FitsMask(position: nat, c: char) {
    if position == 0 then c == '('
    else if position == 4 then c == ')'
    else if position == 5 then c == ' '
    else if position == 9 then c == '-'
    else IsDigit(c)
  }

  /** The formatted value is a prefix of the `(ddd) ddd-dddd` mask that ends with a digit, or is empty. */
  lemma FormatFitsMask(value: string)
    ensures var formatted := FormatPhoneNumber(value);
      && (forall k :: 0 <= k < |formatted| ==> FitsMask(k, formatted[k]))
      && (formatted == [] || IsDigit(formatted[|formatted| - 1]))
  {
  }

  lemma LayoutShortDigits(d: string)
    requires AllDigits(d) && 1 <= |d| <= 3
    ensures Digits(Layout(d)) == d
  {
    DigitsAppend("(", d);
  }

  lemma LayoutMediumDigits(d: string)
    requires AllDigits(d) && 4 <= |d| <= 6
    ensures Digits(Layout(d)) == d
  {
    var a, b := d[..3], d[3..];
    assert Layout(d) == "(" + (a + (") " + b));
    BracketedDigits(a, b);
    assert a + b == d;
  }

  lemma BracketedDigits(a: string, b: string)
    requires AllDigits(a) && AllDigits(b)
    ensures Digits("(" + (a + (") " + b))) == a + b
  {
    assert Digits("(") == [] && Digits(") ") == [];
    DigitsAppend(") ", b);
    DigitsAppend(a, ") " + b);
    DigitsAppend("(", a + (") " + b));
  }

  lemma PunctuatedDigits(a: string, b: string, c: string)
    requires AllDigits(a) && AllDigits(b) && AllDigits(c)
    ensures Digits("(" + (a + (") " + (b + ("-" + c))))) == a + (b + c)
  {
    assert Digits("(") == [] && Digits(") ") == [] && Digits("-") == [];
    DigitsAppend("-", c);
    DigitsAppend(b, "-" + c);
    DigitsAppend(") ", b + ("-" + c));
    DigitsAppend(a, ") " + (b + ("-" + c)));
    DigitsAppend("(", a + (") " + (b + ("-" + c))));
  }

  lemma LayoutLongDigits(d: string)
    requires AllDigits(d) && 7 <= |d|
    ensures Digits(Layout(d)) == d[..Min(|d|, 10)]
  {
    var n := Min(|d|, 10);
    var a, b, c := d[..3], d[3..6], d[6..n];
    assert Layout(d) == "(" + (a + (") " + (b + ("-" + c))));
    PunctuatedDigits(a, b, c);
    assert a + (b + c) == d[..n];
  }

  /** The digits of the formatted value are the first ten digits of the input. */
  lemma FormatKeepsDigits(value: string)
    ensures Digits(FormatPhoneNumber(value)) == Digits(value)[..Min(|Digits(value)|, 10)]
  {
    var d := Digits(value);
    if |d| == 0 {
    } else if |d| <= 3 {
      LayoutShortDigits(d);
    } else if |d| <= 6 {
      LayoutMediumDigits(d);
    } else {
      LayoutLongDigits(d);
    }
  }

  /** The formatter looks at nothing but the first ten digits of its input. */
  lemma FormatUsesFirstTenDigits(v: string, w: string)
    requires Digits(v)[..Min(|Digits(v)|, 10)] == Digits(w)[..Min(|Digits(w)|, 10)]
    ensures FormatPhoneNumber(v) == FormatPhoneNumber(w)
  {
    var dv, dw := Digits(v), Digits(w);
    assert Min(|dv|, 10) == Min(|dw|, 10);
    if |dv| > 10 || |dw| > 10 {
      assert dv[..3] == dw[..3] && dv[3..6] == dw[3..6] && dv[6..10] == dw[6..10] by {
        assert dv[..10] == dw[..10];
        assert dv[..3] == dv[..10][..3] && dv[3..6] == dv[..10][3..6] && dv[6..10] == dv[..10][6..10];
        assert dw[..3] == dw[..10][..3] && dw[3..6] == dw[..10][3..6] && dw[6..10] == dw[..10][6..10];
      }
    } else {
      assert dv == dw;
    }
  }

  /** Formatting is idempotent: reformatting a formatted value changes nothing. */
  lemma FormatIdempotent(value: string)
    ensures FormatPhoneNumber(FormatPhoneNumber(value)) == FormatPhoneNumber(value)
  {
    var formatted := FormatPhoneNumber(value);
    FormatKeepsDigits(value);
    var d := Digits(value);
    var n := Min(|d|, 10);
    assert Digits(formatted)[..Min(|Digits(formatted)|, 10)] == d[..n];
    FormatUsesFirstTenDigits(formatted, value);
  }

  /**
   * A formatted number passes the phone validator exactly when it holds a
   * digit and its first digit is not `0`: the mask's punctuation is all
   * separators, and ten digits are within the validator's sixteen.
   */
  lemma FormattedNumberValidates(value: string)
    ensures ValidatePhone(FormatPhoneNumber(value)) <==> |Digits(value)| > 0 && Digits(value)[0] != '0'
  {
    var formatted := FormatPhoneNumber(value);
    StripFormatted(value);
    FormatKeepsDigits(value);
    var d, e := Digits(value), Digits(formatted);
    assert AllDigits(e);
    assert AfterPlus(e) == e by {
      if |e| > 0 {
        assert IsDigit(e[0]);
      }
    }
    assert |e| <= 10 && |e| == Min(|d|, 10);
    if |d| > 0 {
      assert e[0] == d[0];
    }
  }

  /** The only non-digits the formatter writes are separators, so stripping them leaves the digits. */
  lemma StripFormatted(value: string)
    ensures StripSeparators(FormatPhoneNumber(value)) == Digits(FormatPhoneNumber(value))
  {
    var formatted := FormatPhoneNumber(value);
    FormatFitsMask(value);
    forall k | 0 <= k < |formatted| ensures IsKeptInPhone(formatted[k]) == IsDigit(formatted[k]) {
      assert FitsMask(k, formatted[k]);
    }
    FilterAgrees(formatted, IsKeptInPhone, IsDigit);
  }

  // ----------------------------------------------------------- file upload

  /** The part of a chosen file that the upload check reads. */
  datatype FileInfo = FileInfo(name: string, size: nat)

  /**
   * The error display of one form field: the error elements right after the
   * field, newest first (document order), and whether the field carries the
   * red error border.
   */
  datatype FieldView = FieldView(errors: seq<string>, flagged: bool)

  /** `clearFieldError`: drops the red border and the first error element, if any. */
  function ClearFieldError(view: FieldView): (cleared: FieldView)
    ensures !cleared.flagged
    ensures cleared.errors == if view.errors == [] then [] else view.errors[1..]
  {
    FieldView(if view.errors == [] then [] else view.errors[1..], false)
  }

  /** `showFieldError`: clears the previous error, then adds the border and one error element. */
  function ShowFieldError(view: FieldView, message: string): (shown: FieldView)
    ensures shown.flagged && |shown.errors| >= 1 && shown.errors[0] == message
    ensures |view.errors| <= 1 ==> shown.errors == [message]
  {
    var cleared := ClearFieldError(view);
    FieldView([message] + cleared.errors, true)
  }

  const MAX_FILE_SIZE: nat := 10 * 1024 * 1024
  const SIZE_ERROR_MESSAGE := "File size must be less than 10MB"

  function TypeErrorMessage(allowedTypes: seq<string>): string {
    "Please upload a file with one of these extensions: " + Join(allowedTypes, ", ")
  }

  /**
   * The extension `handleFileUpload` compares: the last of the pieces the name
   * splits into at its dots, lower-cased.  That is the text after the last
   * dot, or the whole name when it has no dot.
   */
  function FileExtension(name: string): (ext: string)
    ensures ext == Lower(AfterLast(name, '.'))
  {
    var pieces := Split(name, '.');
    SplitLastPiece(name, '.');
    Lower(pieces[|pieces| - 1])
  }

  /** What `handleFileUpload` decides, and the field's error display afterwards. */
  datatype UploadVerdict = UploadVerdict(accepted: bool, view: FieldView)

  /**
   * `handleFileUpload`: with no file chosen, false and the page untouched;
   * otherwise the extension is checked against a non-empty `allowedTypes`,
   * then the size against 10 MiB, and the first failure is shown on the field.
   */
  function HandleFileUpload(files: seq<FileInfo>, allowedTypes: seq<string>, view: FieldView): (r: UploadVerdict)
    ensures r.accepted <==> |files| > 0
                            && (allowedTypes == [] || FileExtension(files[0].name) in allowedTypes)
                            && files[0].size <= MAX_FILE_SIZE
    ensures files == [] ==> r.view == view
    ensures files != [] ==> r.view.flagged == !r.accepted
  {
    if files == [] then UploadVerdict(false, view)
    else
      var file := files[0];
      if |allowedTypes| > 0 && FileExtension(file.name) !in allowedTypes then
        UploadVerdict(false, ShowFieldError(view, TypeErrorMessage(allowedTypes)))
      else if file.size > MAX_FILE_SIZE then
        UploadVerdict(false, ShowFieldError(view, SIZE_ERROR_MESSAGE))
      else
        UploadVerdict(true, ClearFieldError(view))
  }

  /**
   * The message shown for a rejected file: the type message whenever the type
   * check fails (even if the file is also too large), the size message otherwise;
   * an accepted file leaves no error.  From a field showing at most one error,
   * at most one remains.
   */
  lemma UploadErrorOrder(files: seq<FileInfo>, allowedTypes: seq<string>, view: FieldView)
    requires files != [] && |view.errors| <= 1
    ensures var r := HandleFileUpload(files, allowedTypes, view);
      var typeOk := allowedTypes == [] || FileExtension(files[0].name) in allowedTypes;
      && (!typeOk ==> r.view.errors == [TypeErrorMessage(allowedTypes)])
      && (typeOk && files[0].size > MAX_FILE_SIZE ==> r.view.errors == [SIZE_ERROR_MESSAGE])
      && (r.accepted ==> r.view.errors == [])
  {
  }

  /** A file of exactly 10 MiB passes the size check; one byte more does not. */
  lemma SizeLimitInclusive(name: string, view: FieldView)
    ensures HandleFileUpload([FileInfo(name, MAX_FILE_SIZE)], [], view).accepted
    ensures !HandleFileUpload([FileInfo(name, MAX_FILE_SIZE + 1)], [], view).accepted
  {
  }

  /**
   * For a name that has a dot, a file within the size limit checked against
   * the server's extensions passes `handleFileUpload` exactly when the
   * server's `allowed_file` accepts its name.
   */
  lemma AgreesWithServerOnDottedNames(name: string, size: nat, view: FieldView)
    requires '.' in name && size <= MAX_FILE_SIZE
    ensures HandleFileUpload([FileInfo(name, size)], ["pdf", "doc", "docx"], view).accepted
            == UploadCheck.AllowedFile(name)
  {
    var k := |RSplitOnce(name, '.')[0]|;
    assert name[k + 1..] == RSplitOnce(name, '.')[1];
    assert FileExtension(name) == Lower(RSplitOnce(name, '.')[1]);
    assert FileExtension(name) in ["pdf", "doc", "docx"] <==> FileExtension(name) in UploadCheck.ALLOWED_EXTENSIONS;
  }

  /**
   * For a name without a dot the two checks part ways: the server rejects
   * every such name, while `handleFileUpload` takes the whole name as the
   * extension, so a file called `pdf` (or `DOCX`) passes.
   */
  lemma DotlessNamesDiverge(name: string, size: nat, view: FieldView)
    requires '.' !in name && size <= MAX_FILE_SIZE
    ensures !UploadCheck.AllowedFile(name)
    ensures HandleFileUpload([FileInfo(name, size)], ["pdf", "doc", "docx"], view).accepted
            <==> Lower(name) in UploadCheck.ALLOWED_EXTENSIONS
  {
    assert Lower(name) in ["pdf", "doc", "docx"] <==> Lower(name) in UploadCheck.ALLOWED_EXTENSIONS;
  }

  /** The file named `pdf` is a concrete witness of that divergence. */
  lemma BarePdfDiverges(view: FieldView)
    ensures HandleFileUpload([FileInfo("pdf", 0)], ["pdf", "doc", "docx"], view).accepted
    ensures !UploadCheck.AllowedFile("pdf")
  {
    assert Lower("pdf") == "pdf";
    DotlessNamesDiverge("pdf", 0, view);
  }
}

=== FILE: form_validation.dfy ===
/**
 * The on-blur field check of static/js/main.js (`validateField`): the value
 * is trimmed, the previous error is cleared, and then the required, e-mail
 * and phone checks run in that order; the first that fails puts its message
 * on the field and the check returns false.
 */
module FormValidation {
  import opened Text
  import opened ClientUtils

  const REQUIRED_MESSAGE := "This field is required"
  const EMAIL_MESSAGE := "Please enter a valid email address"
  const PHONE_MESSAGE := "Please enter a valid phone number"

  /** What `validateField` reads from the input element. */
  datatype Field = Field(value: string, fieldType: string, required: bool)

  /**
   * The message `validateField` shows, if any.  The e-mail and phone checks
   * in main.js repeat the regular expressions of `validateEmail` and
   * `validatePhone` verbatim, so they are those two functions here.
   */
  function FieldError(field: Field): (err: Option<string>)
    ensures Trim(field.value) == [] ==> err == if field.required then Some(REQUIRED_MESSAGE) else None
    ensures Trim(field.value) != [] && field.fieldType == "email" ==>
              err == if ValidateEmail(Trim(field.value)) then None else Some(EMAIL_MESSAGE)
    ensures Trim(field.value) != [] && field.fieldType == "tel" ==>
              err == if ValidatePhone(Trim(field.value)) then None else Some(PHONE_MESSAGE)
    ensures Trim(field.value) != [] && field.fieldType != "email" && field.fieldType != "tel" ==> err == None
  {
    var value := Trim(field.value);
    if field.required && value == [] then Some(REQUIRED_MESSAGE)
    else if field.fieldType == "email" && value != [] && !ValidateEmail(value) then Some(EMAIL_MESSAGE)
    else if field.fieldType == "tel" && value != [] && !ValidatePhone(value) then Some(PHONE_MESSAGE)
    else None
  }

  /** The verdict of `validateField` and the field's error display afterwards. */
  datatype FieldCheck = FieldCheck(valid: bool, view: FieldView)

  /**
   * `validateField`: returns true exactly when no message is produced; the
   * field's previous error is cleared first, so a field that showed at most
   * one error shows exactly the new message, or none.
   */
  function ValidateField(field: Field, view: FieldView): (r: FieldCheck)
    ensures r.valid <==> FieldError(field) == None
    ensures r.view.flagged <==> !r.valid
    ensures |view.errors| <= 1 ==> r.view.errors == match FieldError(field)
                                                    case None => []
                                                    case Some(m) => [m]
  {
    var cleared := ClearFieldError(view);
    match FieldError(field)
    case None => FieldCheck(true, cleared)
    case Some(message) => FieldCheck(false, ShowFieldError(cleared, message))
  }

  /** A value of white space only counts as empty: required fails, optional passes, whatever the type. */
  lemma BlankValueIsEmpty(field: Field)
    requires forall k :: 0 <= k < |field.value| ==> IsSpace(field.value[k])
    ensures FieldError(field) == if field.required then Some(REQUIRED_MESSAGE) else None
  {
    TrimEmptyIffBlank(field.value);
  }

  /** A value that is not all white space is never reported as missing. */
  lemma NonBlankNeverMissing(field: Field)
    requires exists k :: 0 <= k < |field.value| && !IsSpace(field.value[k])
    ensures FieldError(field) != Some(REQUIRED_MESSAGE)
  {
    TrimEmptyIffBlank(field.value);
  }

  /** The checks see only the trimmed value: trimming it beforehand changes nothing. */
  lemma TrimmedFirst(field: Field)
    ensures FieldError(field.(value := Trim(field.value))) == FieldError(field)
  {
    TrimIdempotent(field.value);
  }

  /**
   * A non-empty e-mail field passes exactly when its trimmed value has the
   * `local@host.tld` shape of the regular expression.
   */
  lemma EmailFieldRule(field: Field)
    requires field.fieldType == "email" && Trim(field.value) != []
    ensures FieldError(field) == None <==> MatchesEmailPattern(Trim(field.value))
  {
    ValidateEmailMeaning(Trim(field.value));
  }

  /**
   * A non-empty phone field passes exactly when, separators removed, its
   * trimmed value is an optional `+` and 1 to 16 digits, the first not `0`.
   */
  lemma TelFieldRule(field: Field)
    requires field.fieldType == "tel" && Trim(field.value) != []
    ensures var value := Trim(field.value);
      FieldError(field) == None <==>
        (StripSeparators(value) == Digits(value) || StripSeparators(value) == "+" + Digits(value))
        && 1 <= |Digits(value)| <= 16 && Digits(value)[0] != '0'
  {
    ValidatePhoneMeaning(Trim(field.value));
  }

  /**
   * The listeners main.js attaches to every input: on `blur` the field is
   * validated with its current value, on `input` its error is cleared.
   */
  datatype FieldEvent = Blur(value: string) | Input

  /** The error display of one input after a run of events. */
  function AfterEvents(fieldType: string, required: bool, events: seq<FieldEvent>, view: FieldView): FieldView
    decreases |events|
  {
    if events == [] then view
    else
      var next := match events[0]
                  case Blur(value) => ValidateField(Field(value, fieldType, required), view).view
                  case Input => ClearFieldError(view);
      AfterEvents(fieldType, required, events[1..], next)
  }

  /**
   * However the user types into and leaves the field, it never shows more
   * than one error.
   */
  lemma {:induction false} AtMostOneError(fieldType: string, required: bool, events: seq<FieldEvent>, view: FieldView)
    requires |view.errors| <= 1
    ensures |AfterEvents(fieldType, required, events, view).errors| <= 1
  {
    if events != [] {
      var next := match events[0]
                  case Blur(value) => ValidateField(Field(value, fieldType, required), view).view
                  case Input => ClearFieldError(view);
      AtMostOneError(fieldType, required, events[1..], next);
    }
  }

  /**
   * Once the user has acted on the field, the red border and the error
   * message come and go together.
   */
  lemma {:induction false} BorderMatchesMessage(fieldType: string, required: bool, events: seq<FieldEvent>, view: FieldView)
    requires |view.errors| <= 1 && events != []
    ensures var after := AfterEvents(fieldType, required, events, view);
      after.flagged <==> after.errors != []
  {
    var next := match events[0]
                case Blur(value) => ValidateField(Field(value, fieldType, required), view).view
                case Input => ClearFieldError(view);
    assert |next.errors| <= 1 && (next.flagged <==> next.errors != []);
    if |events| > 1 {
      BorderMatchesMessage(fieldType, required, events[1..], next);
    } else {
      assert events[1..] == [];
    }
  }

  /** After a final `blur`, the field shows exactly the message of that check, or nothing. */
  lemma LastBlurDecides(fieldType: string, required: bool, events: seq<FieldEvent>, value: string, view: FieldView)
    requires |view.errors| <= 1
    ensures AfterEvents(fieldType, required, events + [Blur(value)], view).errors
            == match FieldError(Field(value, fieldType, required))
               case None => []
               case Some(m) => [m]
  {
    AfterEventsAppend(fieldType, required, events, [Blur(value)], view);
    AtMostOneError(fieldType, required, events, view);
  }

  lemma {:induction false} AfterEventsAppend(fieldType: string, required: bool, first: seq<FieldEvent>,
                                             second: seq<FieldEvent>, view: FieldView)
    ensures AfterEvents(fieldType, required, first + second, view)
            == AfterEvents(fieldType, required, second, AfterEvents(fieldType, required, first, view))
  {
    if first != [] {
      assert (first + second)[1..] == first[1..] + second;
      var next := match first[0]
                  case Blur(value) => ValidateField(Field(value, fieldType, required), view).view
                  case Input => ClearFieldError(view);
      AfterEventsAppend(fieldType, required, first[1..], second, next);
    } else {
      assert first + second == second;
    }
  }
}

=== FILE: text.dfy ===
/**
 * Character classes and string operations shared by the server-side
 * upload check and the browser-side validators: JavaScript's `\s` class,
 * decimal digits, ASCII lower-casing, `String.prototype.trim`, global
 * `replace` with an empty replacement (a filter), and the search for the
 * last occurrence of a character that `rsplit` and `split().pop()` rely on.
 */
module Text {

  datatype Option<T> = None | Some(value: T)

  /** JavaScript's `\s`: the WhiteSpace and LineTerminator code points. */
  predicate IsSpace(c: char) {
    || c == '\t' || c == '\n' || c == '\U{B}' || c == '\U{C}' || c == '\r'
    || c == ' ' || c == '\U{A0}' || c == '\U{1680}'
    || ('\U{2000}' <= c <= '\U{200A}')
    || c == '\U{2028}' || c == '\U{2029}' || c == '\U{202F}' || c == '\U{205F}'
    || c == '\U{3000}' || c == '\U{FEFF}'
  }

  /** JavaScript's `\d` (no `u` flag): the ASCII digits. */
  predicate IsDigit(c: char) {
    '0' <= c <= '9'
  }

  function LowerChar(c: char): (l: char)
    ensures 'A' <= c <= 'Z' ==> 'a' <= l <= 'z'
    ensures !('A' <= c <= 'Z') ==> l == c
  {
    if 'A' <= c <= 'Z' then (c as int - 'A' as int + 'a' as int) as char else c
  }

  /** Lower-cases the ASCII letters of `s` and leaves every other character alone. */
  function Lower(s: string): (r: string)
    ensures |r| == |s|
    ensures forall i :: 0 <= i < |s| ==> r[i] == LowerChar(s[i])
  {
    seq(|s|, i requires 0 <= i < |s| => LowerChar(s[i]))
  }

  lemma LowerAppend(a: string, b: string)
    ensures Lower(a + b) == Lower(a) + Lower(b)
  {
  }

  /** Lower-casing moves no dot, and in general no character that is not an ASCII letter. */
  lemma LowerKeepsDots(s: string)
    ensures '.' in Lower(s) <==> '.' in s
  {
    if '.' in Lower(s) {
      var i :| 0 <= i < |s| && Lower(s)[i] == '.';
    }
  }

  lemma LowerIdempotent(s: string)
    ensures Lower(Lower(s)) == Lower(s)
  {
  }

  /** The characters of `s` for which `keep` holds, in order: `s.replace(/[^keep]/g, '')`. */
  function Filter(s: string, keep: char -> bool): (r: string)
    ensures |r| <= |s|
    ensures forall i :: 0 <= i < |r| ==> keep(r[i])
    ensures (forall i :: 0 <= i < |s| ==> keep(s[i])) ==> r == s
    ensures (forall i :: 0 <= i < |s| ==> !keep(s[i])) ==> r == []
  {
    if s == [] then []
    else (if keep(s[0]) then [s[0]] else []) + Filter(s[1..], keep)
  }

  lemma {:induction false} FilterAppend(a: string, b: string, keep: char -> bool)
    ensures Filter(a + b, keep) == Filter(a, keep) + Filter(b, keep)
  {
    if a == [] {
      assert a + b == b;
    } else {
      assert (a + b)[1..] == a[1..] + b;
      FilterAppend(a[1..], b, keep);
    }
  }

  /** Filtering first by a weaker condition does not change a filter by a stronger one. */
  lemma {:induction false} FilterOfFilter(s: string, keep: char -> bool, keep': char -> bool)
    requires forall c :: keep'(c) ==> keep(c)
    ensures Filter(Filter(s, keep), keep') == Filter(s, keep')
  {
    if s != [] {
      FilterOfFilter(s[1..], keep, keep');
      var rest := Filter(s[1..], keep);
      var head' := if keep'(s[0]) then [s[0]] else [];
      assert Filter(s, keep') == head' + Filter(s[1..], keep');
      if keep(s[0]) {
        assert Filter(s, keep) == [s[0]] + rest;
        assert ([s[0]] + rest)[1..] == rest;
        assert Filter([s[0]] + rest, keep') == head' + Filter(rest, keep');
      } else {
        assert Filter(s, keep) == rest;
        assert head' == [];
      }
    }
  }

  lemma FilterIdempotent(s: string, keep: char -> bool)
    ensures Filter(Filter(s, keep), keep) == Filter(s, keep)
  {
  }

  /** Drops the leading characters of `s` that JavaScript's `trim` removes. */
  function TrimStart(s: string): (r: string)
    ensures |r| <= |s| && r == s[|s| - |r|..]
    ensures forall k :: 0 <= k < |s| - |r| ==> IsSpace(s[k])
    ensures r == [] || !IsSpace(r[0])
  {
    if s != [] && IsSpace(s[0]) then TrimStart(s[1..]) else s
  }

  /** Drops the trailing characters of `s` that JavaScript's `trim` removes. */
  function TrimEnd(s: string): (r: string)
    ensures |r| <= |s| && r == s[..|r|]
    ensures forall k :: |r| <= k < |s| ==> IsSpace(s[k])
    ensures r == [] || !IsSpace(r[|r| - 1])
  {
    if s != [] && IsSpace(s[|s| - 1]) then TrimEnd(s[..|s| - 1]) else s
  }

  /** `String.prototype.trim`. */
  function Trim(s: string): (r: string)
    ensures r == [] || (!IsSpace(r[0]) && !IsSpace(r[|r| - 1]))
  {
    TrimEnd(TrimStart(s))
  }

  /** A string trims to nothing exactly when every character is white space. */
  lemma TrimEmptyIffBlank(s: string)
    ensures Trim(s) == [] <==> forall k :: 0 <= k < |s| ==> IsSpace(s[k])
  {
    var t := TrimStart(s);
    if Trim(s) == [] {
      // a non-empty `t` would start with a non-space that `TrimEnd` keeps
      assert t == [];
    } else {
      var r := Trim(s);
      assert r == t[..|r|];
      assert !IsSpace(s[|s| - |t|]);
    }
  }

  lemma TrimIdempotent(s: string)
    ensures Trim(Trim(s)) == Trim(s)
  {
  }

  /** The position of the last `c` in `s`, if there is one. */
  function LastIndexOf(s: string, c: char): (r: Option<nat>)
    ensures r.None? <==> c !in s
    ensures r.Some? ==> r.value < |s| && s[r.value] == c && c !in s[r.value + 1..]
  {
    if s == [] then None
    else if s[|s| - 1] == c then Some(|s| - 1)
    else
      assert s == s[..|s| - 1] + [s[|s| - 1]];
      LastIndexOf(s[..|s| - 1], c)
  }

  /** A `c` with no `c` after it is the last one. */
  lemma LastIndexOfUnique(s: string, c: char, k: nat)
    requires k < |s| && s[k] == c && c !in s[k + 1..]
    ensures LastIndexOf(s, c) == Some(k)
  {
  }

  /** `s.split(c)` in JavaScript: the pieces between the occurrences of `c`. */
  function Split(s: string, c: char): (parts: seq<string>)
    ensures |parts| >= 1
  {
    if s == [] then [[]]
    else
      var rest := Split(s[1..], c);
      if s[0] == c then [[]] + rest
      else [[s[0]] + rest[0]] + rest[1..]
  }

  lemma {:induction false} SplitWithout(s: string, c: char)
    requires c !in s
    ensures Split(s, c) == [s]
  {
    if s != [] {
      SplitWithout(s[1..], c);
      assert s == [s[0]] + s[1..];
    }
  }

  lemma {:induction false} SplitAtSeparator(s: string, c: char)
    requires c in s
    ensures |Split(s, c)| >= 2
  {
    if s[0] != c {
      assert c in s[1..] by { assert s == [s[0]] + s[1..]; }
      SplitAtSeparator(s[1..], c);
    }
  }

  /** The text after the last `c` in `s`, or all of `s` when there is none. */
  function AfterLast(s: string, c: char): (r: string)
    ensures c !in s ==> r == s
    ensures c in s ==> c !in r && exists k :: 0 <= k < |s| && s[k] == c && r == s[k + 1..]
  {
    match LastIndexOf(s, c)
    case None => s
    case Some(k) => s[k + 1..]
  }

  /** With a `c` after the first character, dropping that character keeps the last piece of `split(c)`. */
  lemma SplitKeepsLast(s: string, c: char)
    requires s != [] && c in s[1..]
    ensures var parts, rest := Split(s, c), Split(s[1..], c);
      parts[|parts| - 1] == rest[|rest| - 1]
  {
    var rest := Split(s[1..], c);
    SplitAtSeparator(s[1..], c);
    if s[0] == c {
      assert Split(s, c) == [[]] + rest;
    } else {
      assert Split(s, c) == [[s[0]] + rest[0]] + rest[1..];
    }
  }

  /** With a `c` after the first character, the last `c` of `s` is one past the last `c` of `s[1..]`. */
  lemma LastIndexOfShift(s: string, c: char)
    requires s != [] && c in s[1..]
    ensures LastIndexOf(s, c).value == LastIndexOf(s[1..], c).value + 1
  {
    var k := LastIndexOf(s[1..], c).value;
    assert s[k + 1] == c;
    assert s[k + 2..] == s[1..][k + 1..];
    LastIndexOfUnique(s, c, k + 1);
  }

  /** The last piece of `split(c)` is the text after the last `c`, or all of `s` when there is none. */
  lemma {:induction false} SplitLastPiece(s: string, c: char)
    ensures var parts := Split(s, c);
      parts[|parts| - 1] == AfterLast(s, c)
  {
    if c !in s {
      SplitWithout(s, c);
    } else if c !in s[1..] {
      // the only separator is the first character
      SplitWithout(s[1..], c);
      LastIndexOfUnique(s, c, 0);
    } else {
      SplitLastPiece(s[1..], c);
      SplitKeepsLast(s, c);
      LastIndexOfShift(s, c);
      var k := LastIndexOf(s[1..], c).value;
      assert s[1..][k + 1..] == s[k + 2..];
    }
  }

  /** `s.rsplit(c, 1)` in Python: `[s]` without `c`, else the text before and after the last `c`. */
  function RSplitOnce(s: string, c: char): (parts: seq<string>)
    ensures |parts| == (if c in s then 2 else 1)
    ensures c !in s ==> parts == [s]
    ensures c in s ==> parts[0] + [c] + parts[1] == s && c !in parts[1]
  {
    match LastIndexOf(s, c)
    case None => [s]
    case Some(k) =>
      assert s == s[..k] + [c] + s[k + 1..];
      [s[..k], s[k + 1..]]
  }

  /** `xs.join(sep)` in JavaScript. */
  function Join(xs: seq<string>, sep: string): string {
    if xs == [] then []
    else if |xs| == 1 then xs[0]
    else xs[0] + sep + Join(xs[1..], sep)
  }
}

=== FILE: upload_check.dfy ===
/**
 * The server-side resume check of app/utils.py: a file name is accepted
 * when it contains a dot and the text after its last dot, lower-cased, is
 * one of the allowed resume extensions.
 */
module UploadCheck {
  import opened Text

  const ALLOWED_EXTENSIONS: set<string> := {"pdf", "doc", "docx"}

  /**
   * `allowed_file`: the name must hold a dot, and the part after the last
   * dot, lower-cased, must be one of the allowed extensions.
   */
  function AllowedFile(filename: string): (ok: bool)
    ensures '.' !in filename ==> !ok
  {
    '.' in filename && Lower(RSplitOnce(filename, '.')[1]) in ALLOWED_EXTENSIONS
  }

  /** A dot with no dot after it is the one `rsplit('.', 1)` splits at. */
  lemma LastDotUnique(filename: string, k: nat)
    requires k < |filename| && filename[k] == '.' && '.' !in filename[k + 1..]
    ensures RSplitOnce(filename, '.')[1] == filename[k + 1..]
  {
    var parts := RSplitOnce(filename, '.');
    var j := |parts[0]|;
    assert filename[j] == '.' && filename[j + 1..] == parts[1];
  }

  /** The text after the last dot, when there is one. */
  ghost predicate ExtensionAt(filename: string, k: int) {
    0 <= k < |filename| && filename[k] == '.' && '.' !in filename[k + 1..]
  }

  /**
   * The acceptance rule stated without `rsplit`: some dot has no dot after it,
   * and the text after it, lower-cased, is an allowed extension.
   */
  lemma AllowedFileMeaning(filename: string)
    ensures AllowedFile(filename) <==> exists k :: ExtensionAt(filename, k)
                                                 && Lower(filename[k + 1..]) in ALLOWED_EXTENSIONS
  {
    if AllowedFile(filename) {
      var k := |RSplitOnce(filename, '.')[0]|;
      assert filename[k + 1..] == RSplitOnce(filename, '.')[1];
      assert ExtensionAt(filename, k);
    }
    forall k | ExtensionAt(filename, k) && Lower(filename[k + 1..]) in ALLOWED_EXTENSIONS
      ensures AllowedFile(filename)
    {
      LastDotUnique(filename, k);
    }
  }

  /**
   * A name `stem + "." + ext` whose `ext` has no dot is accepted exactly when
   * `ext`, lower-cased, is an allowed extension; the stem is never looked at.
   */
  lemma ExtensionDecides(stem: string, ext: string)
    requires '.' !in ext
    ensures AllowedFile(stem + "." + ext) == (Lower(ext) in ALLOWED_EXTENSIONS)
  {
    var name := stem + "." + ext;
    assert name[|stem| + 1..] == ext;
    assert name[|stem|] == '.';
    LastDotUnique(name, |stem|);
  }

  /**
   * Only the segment after the last dot matters: when `ext` holds a dot
   * itself, `stem + "." + ext` gets the same verdict as `ext` alone.
   */
  lemma InnerDotsIgnored(stem: string, ext: string)
    requires '.' in ext
    ensures AllowedFile(stem + "." + ext) == AllowedFile(ext)
  {
    var name := stem + "." + ext;
    var offset := |stem| + 1;
    var k := |RSplitOnce(ext, '.')[0]|;
    assert ext[k + 1..] == RSplitOnce(ext, '.')[1];
    assert name[offset + k] == '.';
    assert name[offset + k + 1..] == ext[k + 1..];
    LastDotUnique(name, offset + k);
  }

  /** A name ending in a dot has an empty extension and is rejected (`file.`, `.`). */
  lemma TrailingDotRejected(stem: string)
    ensures !AllowedFile(stem + ".")
  {
    ExtensionDecides(stem, "");
    assert stem + "." + "" == stem + ".";
  }

  /** Lower-casing a name lower-cases the text after its last dot and moves no dot. */
  lemma LowerKeepsExtension(f: string)
    ensures '.' in Lower(f) <==> '.' in f
    ensures '.' in f ==> RSplitOnce(Lower(f), '.')[1] == Lower(RSplitOnce(f, '.')[1])
  {
    LowerKeepsDots(f);
    if '.' in f {
      var parts := RSplitOnce(f, '.');
      LowerAppend(parts[0] + ".", parts[1]);
      LowerAppend(parts[0], ".");
      assert Lower(".") == ".";
      var lf := Lower(parts[0]) + "." + Lower(parts[1]);
      assert Lower(f) == lf;
      LowerKeepsDots(parts[1]);
      assert lf[|parts[0]|] == '.' && lf[|parts[0]| + 1..] == Lower(parts[1]);
      LastDotUnique(lf, |parts[0]|);
    }
  }

  /** Lower-casing the whole name never changes the verdict. */
  lemma LowerCasePreservesVerdict(f: string)
    ensures AllowedFile(Lower(f)) == AllowedFile(f)
  {
    LowerKeepsExtension(f);
    if '.' in f {
      LowerIdempotent(RSplitOnce(f, '.')[1]);
    }
  }

  /** Changing the letter case anywhere in the name never changes the verdict. */
  lemma CaseInsensitive(f: string, g: string)
    requires Lower(f) == Lower(g)
    ensures AllowedFile(f) == AllowedFile(g)
  {
    LowerCasePreservesVerdict(f);
    LowerCasePreservesVerdict(g);
  }

  /**
   * Whatever the stem, the allowed extensions are accepted in lower and upper
   * case (`resume.pdf`, `cv.docx`, `RESUME.PDF`, `Document.DOC`).
   */
  lemma ListedExtensionsAccepted(stem: string, ext: string)
    requires ext in {"pdf", "doc", "docx", "PDF", "DOC", "DOCX"}
    ensures AllowedFile(stem + "." + ext)
  {
    assert '.' !in ext;
    if ext == "PDF" {
      assert Lower(ext) == "pdf";
    } else if ext == "DOC" {
      assert Lower(ext) == "doc";
    } else if ext == "DOCX" {
      assert Lower(ext) == "docx";
    } else {
      assert Lower(ext) == ext;
    }
    ExtensionDecides(stem, ext);
  }

  /** Whatever the stem, other extensions are rejected (`resume.txt`, `cv.png`, `script.py`). */
  lemma OtherExtensionsRejected(stem: string, ext: string)
    requires ext in {"txt", "jpg", "png", "exe", "py"}
    ensures !AllowedFile(stem + "." + ext)
  {
    assert '.' !in ext;
    assert Lower(ext) == ext;
    assert ext[0] != 'p' || ext[1] != 'd';
    assert ext !in ALLOWED_EXTENSIONS;
    ExtensionDecides(stem, ext);
  }

  /** Only the last segment counts: `a.pdf.txt` is rejected, `a.txt.pdf` and `.pdf` are accepted. */
  lemma LastSegmentOnly()
    ensures !AllowedFile("a.pdf" + "." + "txt") && AllowedFile("a.txt" + "." + "pdf")
    ensures AllowedFile("" + "." + "pdf")
  {
    OtherExtensionsRejected("a.pdf", "txt");
    ListedExtensionsAccepted("a.txt", "pdf");
    ListedExtensionsAccepted("", "pdf");
  }
}
